=== FILE: README.md ===
# Relay safety interlock: a Dafny model

This project models the relay controller in `relay_controller.c` and proves
properties of that model. The controller is a single-threaded state machine
on an AVR microcontroller. It drives a latching relay through two coils: an
ON coil and an OFF coil. From RELAY_OFF, it starts the coil sequence once
two upstream systems (OpenWRT and the e-bike) both request it. It then
watches the ground-fault interrupt (GFI) line. A fault is counted and sends
the controller to SOFT_GROUND_FAULT. That state drives no coil, so a relay
that was closed stays latched closed through the wait. After the wait, the
controller retries RELAY_ENABLE without reading the enable lines. After
`FAULT_LIMIT` = 20 faults, it stops in HARD_GROUND_FAULT, which also drives
no coil, and only a power cycle leaves that state. The model tracks coil
drive levels, not the position of the relay contacts.

The model has six modules:

- `Pins` (`pins.dfy`) covers the seven PORTA lines, their one-hot masks, and
  the register helpers `is_high`, `start_signal`, `stop_signal` and
  `update_status_pins`. PORTA.IN and PORTA.OUT are `bv8` values. The coil
  drivers are active-low: `start_signal` clears a coil's bit to energise it.
- `Polling` (`polling.dfy`) holds the busy-wait loops. Time is counted in
  ticks of 1 ms, and the controller reads PORTA.IN once per tick. The
  environment is therefore a finite sequence of PORTA.IN samples. A timed
  window of `n` ticks is the next `n` samples. The `while (1)` waits are
  windows as long as the samples at hand.
- `Handlers` (`handlers.dfy`) holds `enum State`, the eight state handlers
  and `Actuate`, the shared coil sequence of `relay_enable` and
  `relay_disable`. A handler is a pure function of `fault_count`, PORTA.OUT
  and the samples. It reports one of two outcomes:
  - `Returned`: the next state, the new `fault_count` and PORTA.OUT, the
    number of samples used, and the PORTA.OUT level held in each coil window.
  - `Waiting`: the samples ran out while the handler was still polling.
- `Controller` (`controller.dfy`) holds `state_machine`:
  - `Dispatch` runs one handler.
  - `Step` and `Run` iterate the loop.
  - The lemmas prove the invariant on the fault count in every reachable
    state, that HARD_GROUND_FAULT absorbs, and that the coils are mutually
    exclusive.
- `AsWritten` (`as_written.dfy`) keeps the five literal readings listed
  under Findings.
- `Scenarios` (`scenarios.dfy`) holds whole runs: idle RELAY_OFF, a clean
  enable, a fault with retry, escalation to HARD_GROUND_FAULT, and an enable
  request dropping during probation.

Interpretations the model makes:

- **`is_high`.** The comments on `is_high` say it checks that all listed
  pins are HIGH. The test at relay_controller.c:58 does the opposite: it
  returns true when none of the listed bits reads 1. The model follows the
  test. An enable request is therefore "present" when its line reads 0.
  Status mirroring copies the raw bit level.
- **GFI polarity.** A ground fault is `!is_high(GFI_PIN)`, meaning the GFI bit
  reads 1. `relay_enable`, `relay_disable` and `probationary_relay_on` (five
  call sites) read it this way. `relay_on` reads it the other way round; see
  Findings.
- **Fault count.** `fault_count` is a `uint8_t`, so it is modelled as an
  eight-bit counter with wrap-around. The invariant shows the wrap can never
  happen.
- **Fault-count reset.** `relay_disable` does not reset `fault_count` before
  returning RELAY_OFF. `Controller.Inv` shows no reset is needed, because
  RELAY_DISABLE is only reached with a count of 0.
- **Coils at power-on.** PORTA.OUT at power-on is a parameter of `Init`. The
  source's `start` never writes PORTA.OUT, which leaves the coils at their
  reset level; see Findings. The model's `start` releases both coils, so
  coil mutual exclusion holds from every power-on level.

## Model

| member | source | states |
|---|---|---|
| Pins.MasksOneHot | relay_controller.c:16-22 | Each intended pin mask is `1 << k` for its PAk position, selects exactly one bit, and differs from every other pin's mask. |
| Pins.IsHigh | relay_controller.c:46-67 | `is_high` returns true iff none of the listed pins reads 1 in PORTA.IN. It is true for an empty list. |
| Pins.StartSignal | relay_controller.c:73-79 | `start_signal` energises the named coil by clearing its bit. No other bit changes. A non-coil pin leaves the register unchanged. |
| Pins.StopSignal | relay_controller.c:85-91 | `stop_signal` releases the named coil by setting its bit. No other bit changes. A non-coil pin leaves the register unchanged. |
| Pins.StopUndoesStart | relay_controller.c:73-91 | Energising an idle coil and then releasing it restores PORTA.OUT exactly. |
| Pins.Handover | relay_controller.c:202-204 | After the first coil is released and the second is energised, only the second coil is energised. Only coil bits differ from the entry level. |
| Pins.HandoverRestores | relay_controller.c:187-219 | Starting from idle coils, the full sequence (energise and release one coil, then the other) ends with PORTA.OUT as it started. |
| Pins.UpdateStatusPins | relay_controller.c:98-110 | Each status bit equals the bit of its enable input. Every other output bit is unchanged. |
| Pins.UpdateStatusPinsDeterminedByInputs | relay_controller.c:98-110 | The result depends only on the inputs and on the output bits outside the two status bits. |
| Pins.UpdateStatusPinsIdempotent | relay_controller.c:98-110 | Applying `update_status_pins` twice gives the same register as applying it once. |
| Polling.FirstHit | relay_controller.c:192-200 | A timed poll loop ends in one of three ways. It stops at the first sample in the window that meets the exit condition. If no sample in the window meets it, the window expires. If the samples run out inside the window, the loop is still polling. |
| Polling.FirstHitIffSome | relay_controller.c:192-200 | The loop stops early iff some sample inside the window meets the exit condition. It expires iff the whole window is available and no sample in it does. |
| Polling.PollUntil | relay_controller.c:169-173 | An unbounded wait returns iff some sample meets the condition. It returns at the first such sample. |
| Handlers.Actuate | relay_controller.c:186-219 | The coil sequence completes iff no fault occurs in `2 * RELAY_POWER_TICKS` samples. On a fault it stops at the first faulty sample. It enters the second window iff the first window passed with no fault. |
| Handlers.ActuateFirstWindow | relay_controller.c:187-200 | In the first window, the first coil is energised and nothing else differs from the entry level. |
| Handlers.ActuateSecondWindow | relay_controller.c:202-217 | The first coil is released before the second is energised. In the second window only the second coil is energised, and only coil bits differ from the entry level. |
| Handlers.ActuateReleases | relay_controller.c:192-219 | Every exit releases the coil that was being driven. After both windows, both coils are idle. |
| Handlers.ActuateExclusive | relay_controller.c:187-219 | Starting from idle coils, each window energises exactly one coil: OFF-then-ON for enable, ON-then-OFF for disable. |
| Handlers.ActuateRestores | relay_controller.c:187-219 | Starting from idle coils, every exit of the coil sequence, with or without a fault, leaves PORTA.OUT as it found it. |
| Pins.ReleaseCoils | relay_controller.c:85-91 | Releasing both coils with `stop_signal` leaves both idle and no other bit changed. It changes nothing when both are already idle. |
| Handlers.OnStart | relay_controller.c:138-159 | `start` returns RELAY_OFF at once, with `fault_count` set to 0 and no sample used. As corrected under Findings, it also leaves both coils idle and no other line changed, whatever PORTA.OUT was. |
| Handlers.OnRelayOff | relay_controller.c:168-174 | `relay_off` returns RELAY_ENABLE iff some sample has both enable requests. It returns at the first such sample and changes nothing else. |
| Handlers.OnRelayEnable | relay_controller.c:186-226 | The outcome is SOFT_GROUND_FAULT iff a fault sample occurs in either coil window. Otherwise it is RELAY_ON when `fault_count == 0` and PROBATIONARY_RELAY_ON when not, after exactly two windows. `fault_count` is unchanged. |
| Handlers.OnRelayOn | relay_controller.c:236-244 | `relay_on` returns at the first sample where an enable request is missing or a fault is sensed. The result is RELAY_DISABLE iff an enable request is missing, and SOFT_GROUND_FAULT iff both requests are present and a fault is sensed. |
| Handlers.OnRelayDisable | relay_controller.c:254-290 | `relay_disable` returns only RELAY_OFF or SOFT_GROUND_FAULT. The result is SOFT_GROUND_FAULT iff a fault sample occurs in either window. `fault_count` is unchanged. |
| Handlers.OnSoftGroundFault | relay_controller.c:301-318 | `fault_count` goes up by exactly one, as an eight-bit counter. The result is HARD_GROUND_FAULT iff the new count is at least FAULT_LIMIT. Otherwise it is RELAY_ENABLE after `GROUND_FAULT_DELAY_TICKS`. |
| Handlers.OnProbationaryRelayOn | relay_controller.c:331-350 | If an enable request drops first, the count is set to 0 and the result is RELAY_DISABLE. If a fault comes first, the result is SOFT_GROUND_FAULT with the count kept. A quiet window of `PROBATION_TICKS` samples sets the count to 0 and returns RELAY_ON. |
| Handlers.OnHardGroundFault | relay_controller.c:360-364 | `hard_ground_fault` never returns and changes nothing. |
| Controller.Dispatch | relay_controller.c:370-394 | Every handler returns only a state listed in its "Possible Return States" comment. The HARD_GROUND_FAULT handler never returns. |
| Controller.Step | relay_controller.c:373-393 | One iteration of the loop never adds samples. |
| Controller.StepKeepsInv | relay_controller.c:370-394 | Each handler keeps the invariant on `fault_count` for the state it returns. |
| Controller.RunKeepsInv | relay_controller.c:370-394 | Any number of iterations keeps that invariant. |
| Controller.ReachableBelowLimit | relay_controller.c:371-393 | In every state reached from power-on other than HARD_GROUND_FAULT, `fault_count < FAULT_LIMIT`. |
| Controller.StartGoesToRelayOff | relay_controller.c:371-375 | The first iteration after power-on leads to RELAY_OFF with `fault_count` set to 0, no sample used, and both coils idle whatever the reset level of PORTA.OUT. |
| Controller.HardGroundFaultAbsorbs | relay_controller.c:386-387 | Once HARD_GROUND_FAULT is reached, no number of iterations and no input changes the configuration. |
| Controller.StepKeepsOut | relay_controller.c:370-394 | Starting from idle coils, each iteration leaves PORTA.OUT unchanged. |
| Controller.RunKeepsOut | relay_controller.c:370-394 | Starting from idle coils, PORTA.OUT is unchanged at every dispatch. |
| Controller.DispatchCoilsExclusive | relay_controller.c:370-394 | Starting from idle coils, no handler ever has both coils energised, in any window or while still polling. |
| Controller.RunCoilsExclusive | relay_controller.c:370-394 | If the coils start idle, no dispatch in any run ever energises both coils at once. |
| Controller.StartReleasesCoils | relay_controller.c:371-375 | The dispatch of `start` holds no coil window and leaves both coils idle, whatever the reset level. |
| Controller.PowerOnCoilsExclusive | relay_controller.c:370-394 | From power-on with any PORTA.OUT level, no dispatch in any run ever energises both coils at once. |
| AsWritten.MaskAsWritten | relay_controller.c:16-22 | No pin constant as written, `1 < k`, equals or overlaps its intended mask `1 << k`. Only OPENWRT_PIN is 0. |
| AsWritten.MasksAsWrittenCollide | relay_controller.c:16-22 | As written, OPENWRT_PIN is 0, and RELAY_ON_PIN, RELAY_OFF_PIN and GFI_PIN are the same mask. The intended masks differ. |
| AsWritten.IsHighCounted | relay_controller.c:46-67 | `is_high` called with a count equal to the number of pins passed agrees with the intended all-pins reading. A count of 0 or less gives true without looking at any pin. |
| AsWritten.RelayOffAsWritten | relay_controller.c:168-174 | `relay_off` with the call `is_high(OPENWRT_PIN, EBIKE_PIN)` as written returns iff a sample passes that check. |
| AsWritten.RelayOffAsWrittenIgnoresEnables | relay_controller.c:170 | As written, `relay_off` returns RELAY_ENABLE on the first sample whatever the enable lines read. The corrected handler keeps waiting on a sample without the requests. |
| AsWritten.RelayOnAsWritten | relay_controller.c:236-244 | With `is_high(GFI_PIN)` as written, `relay_on` returns SOFT_GROUND_FAULT exactly on samples with both requests present and no fault sensed. |
| AsWritten.RelayOnAsWrittenInvertsFault | relay_controller.c:238 | As written, `relay_on` trips on a healthy sample and stays closed through a sustained fault. The corrected handler does the opposite in both cases. |
| AsWritten.ProbationaryRelayOnAsWritten | relay_controller.c:331-350 | With `toc` never refreshed, probation never returns RELAY_ON. It waits as long as no sample drops an enable request or shows a fault. |
| AsWritten.StartAsWritten | relay_controller.c:138-159 | `start` as written agrees with the corrected `start` in state, count and samples. Its PORTA.OUT equals the corrected one's exactly when both coils were already idle. |
| AsWritten.StartAsWrittenEnergisesBothCoils | relay_controller.c:138-159 | From the reset level 0x00, `start` as written leaves both coils energised, and the first window of `relay_enable` holds both at once. The corrected `start` leaves them idle. |
| AsWritten.ProbationAsWrittenNeverEnds | relay_controller.c:332-345 | On a quiet window of `PROBATION_TICKS` samples, probation as written is still waiting. The corrected handler returns RELAY_ON with the count cleared. |
| Scenarios.RelayOffStaysOff | relay_controller.c:168-174 | While no sample has both enable requests, RELAY_OFF stays put for any number of iterations. |
| Scenarios.CleanEnable | relay_controller.c:186-226 | With no fault, RELAY_ENABLE energises the OFF coil alone and then the ON coil alone, each for `RELAY_POWER_TICKS`. It restores PORTA.OUT and returns RELAY_ON or PROBATIONARY_RELAY_ON by the count. |
| Scenarios.CleanEnableClosesRelay | relay_controller.c:370-381 | With both requests present and no fault, RELAY_OFF leads to RELAY_ENABLE and then RELAY_ON in two iterations, using `1 + 2 * RELAY_POWER_TICKS` samples. |
| Scenarios.FaultTripsEnable | relay_controller.c:192-197 | A fault on the first sample of RELAY_ENABLE leads to SOFT_GROUND_FAULT after one sample, with the count unchanged. |
| Scenarios.SoftFaultRetries | relay_controller.c:301-318 | Below the limit, SOFT_GROUND_FAULT adds one to the count and returns to RELAY_ENABLE after `GROUND_FAULT_DELAY_TICKS` samples. |
| Scenarios.FaultDuringEnableRetries | relay_controller.c:186-318 | A fault during enable leads, after the delay, back to RELAY_ENABLE with one more fault counted. |
| Scenarios.SoftFaultEscalates | relay_controller.c:304-307 | SOFT_GROUND_FAULT reaching FAULT_LIMIT goes straight to HARD_GROUND_FAULT. |
| Scenarios.LastFaultEscalates | relay_controller.c:186-307 | The FAULT_LIMIT-th fault during enable ends in HARD_GROUND_FAULT within two iterations. |
| Scenarios.RepeatedFaultsEscalate | relay_controller.c:293-318 | From RELAY_ENABLE with `k` faults counted, `FAULT_LIMIT - k` fault episodes end in HARD_GROUND_FAULT with exactly FAULT_LIMIT faults. |
| Scenarios.FaultInProbationLatchesClosed | relay_controller.c:301-350 | At the last fault below the limit, a fault in probation leads to SOFT_GROUND_FAULT and then HARD_GROUND_FAULT with FAULT_LIMIT faults. Neither dispatch holds a coil window, so no coil pulse opens the relay. |
| Scenarios.RetryIgnoresRequests | relay_controller.c:186-318 | With no enable request and no fault, SOFT_GROUND_FAULT still returns to RELAY_ENABLE after the delay. RELAY_ENABLE then ends with the ON coil alone energised and returns PROBATIONARY_RELAY_ON. |
| Scenarios.ProbationDropDisables | relay_controller.c:336-340 | An enable request dropping during probation clears the count and leads to RELAY_DISABLE. |

## Left out

- Port configuration in `start` (the PORTA.DIR and PINnCTRL writes, relay_controller.c:141-156) is hardware set-up and is not modelled. The model follows the direction table in the comments at lines 141 and 146: PA1, PA2 and PA5 are inputs, and PA3, PA4, PA6 and PA7 are outputs. The DIR writes at lines 142-150 do the reverse. Under them the coil lines would be inputs with pull-ups (lines 153-154). For that reason the Findings row for lines 138-159 claims only medium confidence.
- The position of the relay contacts is not modelled; only coil drive levels are. A fault in RELAY_ON or PROBATIONARY_RELAY_ON leads to SOFT_GROUND_FAULT and possibly HARD_GROUND_FAULT, and neither of those drives a coil. So a relay closed by RELAY_ENABLE stays latched closed, as `Scenarios.FaultInProbationLatchesClosed` shows. Whether a fault should open the relay is a design question the code does not answer. The model records the behaviour and claims no correction.
- `clock()` and `get_time_diff` work on `double` seconds. They are replaced by integer ticks of 1 ms with one PORTA.IN sample per tick. A window of RELAY_POWER_TIME is therefore exactly 150 polls, and the model does not represent polling that is faster or slower than the clock.
- A poll iteration in `relay_on` and `probationary_relay_on` reads PORTA.IN more than once. The model takes both reads from the same sample.
- The non-terminating loops in `relay_off`, `relay_on` and `hard_ground_fault` are modelled as polling over a finite sample prefix. A handler still polling when the samples run out reports `Waiting`.
- The `printf` in `main` and the `return` out of `state_machine` on an invalid state are not modelled. `State` is a closed datatype, so that branch cannot arise.
- The `volatile` qualifier on `fault_count` and any interrupt-driven access to it are not modelled. The model is sequential.
- clock_test.c, interrupt.c and blinky.c are LED demos built on timer and interrupt registers and `_delay_ms`. They are not part of this model.
- `update_status_pins` is modelled on its own. The state machine never calls it, so no run of the model calls it either. It reads PORTA.IN twice (relay_controller.c:99 and :105), but `Pins.UpdateStatusPins` takes both bits from a single sample.
- Pins.IsHigh: follows the test at relay_controller.c:58, true iff no listed bit reads 1. The comments at lines 44 and 56 say "all HIGH", and the model does not follow them.
- Pins.IsHigh: reads each pin as `va_arg(valist, int)` would. As written, `va_arg(valist, uint8_t)` at relay_controller.c:58 is undefined, because a `uint8_t` argument arrives promoted to `int`. The model gives no meaning to that undefined form.

## Findings

| source | as written | input that shows it | evidently intended | confidence | as-written member | corrected member |
|---|---|---|---|---|---|---|
| relay_controller.c:16-22 | The pin masks use `(1 < k)`, a comparison. OPENWRT_PIN is 0 and every other pin is 1. | Any pin: RELAY_ON_PIN == RELAY_OFF_PIN == GFI_PIN == 1. | `(1 << k)`, as in clock_test.c. | not executed; high | AsWritten.MasksAsWrittenCollide | Pins.MasksOneHot |
| relay_controller.c:170 | `is_high(OPENWRT_PIN, EBIKE_PIN)` passes a pin as the count argument. With the masks as written the count is 0, so the check is vacuously true. The same call is at lines 237 and 336. The six calls `is_high(GFI_PIN)` at lines 193, 210, 238, 261, 278 and 342 pass count 1 and no pin, so each reads an argument that was never passed, which is undefined. | A sample 0x06 where neither enable request is present: `relay_off` goes to RELAY_ENABLE anyway. | `is_high(2, OPENWRT_PIN, EBIKE_PIN)` at lines 170, 237 and 336. `is_high(1, GFI_PIN)` at lines 193, 210, 238, 261, 278 and 342. | not executed; high | AsWritten.RelayOffAsWrittenIgnoresEnables | Handlers.OnRelayOff |
| relay_controller.c:238 | `relay_on` treats `is_high(GFI_PIN)` as a fault. Every other handler treats `!is_high(GFI_PIN)` as a fault. | A healthy sample 0x00 trips the relay. A sustained fault 0x20 keeps it closed. | `!is_high(GFI_PIN)`, as at lines 193, 210, 261, 278 and 342. | not executed; medium: the hardware polarity is not visible in the code | AsWritten.RelayOnAsWrittenInvertsFault | Handlers.OnRelayOn |
| relay_controller.c:335-345 | The probation loop never refreshes `toc`, so the elapsed time stays at its value after line 333, far below PROBATION_TIME, and the window never closes. | `PROBATION_TICKS` quiet samples (0x00): still waiting, and RELAY_ON is never reached. | `toc = clock();` at the end of the loop body, as in the other timed loops. | not executed; high | AsWritten.ProbationAsWrittenNeverEnds | Handlers.OnProbationaryRelayOn |
| relay_controller.c:138-159 | `start` sets the port directions but never writes PORTA.OUT, so the active-low coils stay at their reset level. | PORTA.OUT at its reset value 0x00: both coils energised after `start`, and both held during the first window of `relay_enable`. | Drive both coils idle (`stop_signal` on each) before returning RELAY_OFF. | not executed; medium: whether the coil lines are driven as outputs depends on the direction set-up | AsWritten.StartAsWrittenEnergisesBothCoils | Controller.PowerOnCoilsExclusive |

=== FILE: as_written.dfy ===
/** Five places where the controller's code, read literally, does not do
    what its comments and the rest of the code evidently intend. Each
    member here keeps one or two of these readings, with the others
    corrected, and a lemma shows an input on which it differs from the
    corrected handler the rest of the model uses. */
module AsWritten {
  import opened Pins
  import opened Polling
  import opened Handlers

  /** The pin constants as written, `(1 < k)`: a comparison, so 1 for every
      k > 1 and 0 for k = 1, not the shift `1 << k`. */
  function MaskAsWritten(p: Pin): (m: bv8)
    ensures m != Mask(p) && m & Mask(p) == 0
    ensures m == 0 <==> p == OpenwrtPin
  {
    if 1 < Index(p) then 1 else 0
  }

  /** With the masks as written, the OpenWRT enable line has no bit at all,
      and the two coil drivers and the fault sensor share one bit, while
      the intended masks keep them apart. */
  lemma MasksAsWrittenCollide()
    ensures MaskAsWritten(OpenwrtPin) == 0
    ensures MaskAsWritten(RelayOnPin) == MaskAsWritten(RelayOffPin) == MaskAsWritten(GfiPin)
    ensures Mask(RelayOnPin) != Mask(RelayOffPin)
  {
  }

  /** `is_high(num, ...)` as declared: the first argument is the number of
      variadic pin arguments it then examines. C requires that many to be
      passed. */
  function IsHighCounted(input: bv8, num: int, args: seq<Pin>): (r: bool)
    requires num <= |args|
    ensures num == |args| ==> (r <==> AllHigh(input, args))
    ensures num <= 0 ==> r
  {
    AllHigh(input, args[..if num < 0 then 0 else num])
  }

  /** `is_high(OPENWRT_PIN, EBIKE_PIN)` as written: OPENWRT_PIN becomes the
      count, which with the masks as written is 0, so no line is looked at. */
  predicate EnabledAsWritten(input: bv8) {
    IsHighCounted(input, MaskAsWritten(OpenwrtPin) as int, [EbikePin])
  }

  /** `relay_off` with the enable check as written. */
  function RelayOffAsWritten(faultCount: uint8, out: bv8, env: seq<bv8>): (r: Outcome)
    ensures r.Returned? <==> exists j :: 0 <= j < |env| && EnabledAsWritten(env[j])
  {
    match PollUntil(env, EnabledAsWritten)
    case Hit(i) => Returned(RelayEnable, faultCount, out, i + 1, [])
    case _ => Waiting(faultCount, out)
  }

  /** As written, `relay_off` goes to RELAY_ENABLE on the first sample
      whatever the enable lines read. On a sample where neither enable
      request is present the corrected handler keeps waiting. */
  lemma RelayOffAsWrittenIgnoresEnables(faultCount: uint8, out: bv8, env: seq<bv8>)
    requires |env| > 0
    ensures RelayOffAsWritten(faultCount, out, env) == Returned(RelayEnable, faultCount, out, 1, [])
    ensures !Enabled(0x06) && OnRelayOff(faultCount, out, [0x06]).Waiting?
  {
    assert EnabledAsWritten(env[0]);
    var quiet: seq<bv8> := [0x06];
    assert Bit(quiet[0], [OpenwrtPin, EbikePin][0]);
    assert !Enabled(quiet[0]);
  }

  /** `relay_on`'s fault check as written, `is_high(GFI_PIN)`: the opposite
      reading of the fault line from every other handler. */
  predicate RelayOnFaultAsWritten(input: bv8) {
    AllHigh(input, [GfiPin])
  }

  /** The exit condition of `relay_on`'s loop with that reading. */
  predicate LeavesOnAsWritten(input: bv8) {
    !Enabled(input) || RelayOnFaultAsWritten(input)
  }

  /** `relay_on` with the fault line read as written. */
  function RelayOnAsWritten(faultCount: uint8, out: bv8, env: seq<bv8>): (r: Outcome)
    ensures r.Returned? ==> 0 < r.used <= |env|
    ensures r.Returned? ==>
      (r.next == SoftGroundFault <==> Enabled(env[r.used - 1]) && !FaultActive(env[r.used - 1]))
  {
    match PollUntil(env, LeavesOnAsWritten)
    case Hit(i) =>
      Returned(if !Enabled(env[i]) then RelayDisable else SoftGroundFault, faultCount, out, i + 1, [])
    case _ => Waiting(faultCount, out)
  }

  /** As written, `relay_on` declares a ground fault on a healthy sample
      (both requests present, fault line clear) and holds the relay closed
      for as long as a fault is sensed. The corrected handler does the
      opposite in both cases. */
  lemma RelayOnAsWrittenInvertsFault(faultCount: uint8, out: bv8, env: seq<bv8>)
    requires |env| > 0
    requires forall j :: 0 <= j < |env| ==> Enabled(env[j]) && FaultActive(env[j])
    ensures Enabled(0x00) && !FaultActive(0x00)
    ensures RelayOnAsWritten(faultCount, out, [0x00]).Returned?
    ensures RelayOnAsWritten(faultCount, out, [0x00]).next == SoftGroundFault
    ensures OnRelayOn(faultCount, out, [0x00]).Waiting?
    ensures RelayOnAsWritten(faultCount, out, env).Waiting?
    ensures OnRelayOn(faultCount, out, env) == Returned(SoftGroundFault, faultCount, out, 1, [])
  {
    assert LeavesOnAsWritten(0x00);
    assert !LeavesOn(0x00);
    assert LeavesOn(env[0]);
  }

  /** `probationary_relay_on` as written: `toc` is never read again, so the
      elapsed time stays at its value from the two `clock()` calls before
      the loop, far below PROBATION_TIME, and the probation window never
      closes. */
  function ProbationaryRelayOnAsWritten(faultCount: uint8, out: bv8, env: seq<bv8>): (r: Outcome)
    ensures r.Returned? ==> r.next in {RelayDisable, SoftGroundFault}
    ensures r.Waiting? <==> forall j :: 0 <= j < |env| ==> !LeavesOn(env[j])
  {
    match PollUntil(env, LeavesOn)
    case Hit(i) =>
      if !Enabled(env[i]) then Returned(RelayDisable, 0, out, i + 1, [])
      else Returned(SoftGroundFault, faultCount, out, i + 1, [])
    case _ => Waiting(faultCount, out)
  }

  /** A quiet probation window of PROBATION_TICKS samples: as written the
      handler is still waiting at its end, while the corrected one clears
      the fault count and goes to RELAY_ON. */
  lemma ProbationAsWrittenNeverEnds(faultCount: uint8, out: bv8)
    ensures var env := seq(PROBATION_TICKS, _ => 0x00 as bv8);
      && ProbationaryRelayOnAsWritten(faultCount, out, env).Waiting?
      && OnProbationaryRelayOn(faultCount, out, env) == Returned(RelayOn, 0, out, PROBATION_TICKS, [])
  {
    var env := seq(PROBATION_TICKS, _ => 0x00 as bv8);
    assert !LeavesOn(0x00);
    assert forall j :: 0 <= j < |env| ==> env[j] == 0x00;
  }

  /** `start` as written: it clears the fault count and configures the
      port, but never writes PORTA.OUT, so the coils stay at the level
      PORTA.OUT had after reset. */
  function StartAsWritten(faultCount: uint8, out: bv8, env: seq<bv8>): (r: Outcome)
    ensures var fixed := OnStart(faultCount, out, env);
      && r.Returned? && r.next == fixed.next && r.faultCount == fixed.faultCount
      && r.used == fixed.used && r.held == fixed.held
      && (r.out == fixed.out <==> CoilsIdle(out))
  {
    Returned(RelayOff, 0, out, 0, [])
  }

  /** From the reset level 0x00 of PORTA.OUT, `start` as written leaves
      both active-low coils energised, and the first window of
      `relay_enable` then holds both of them at once. The corrected `start`
      releases both coils. */
  lemma StartAsWrittenEnergisesBothCoils(env: seq<bv8>)
    ensures !AtMostOneCoil(StartAsWritten(0, 0x00, env).out)
    ensures !AtMostOneCoil(Actuate(0x00, env, RelayOffPin).held[0])
    ensures CoilsIdle(OnStart(0, 0x00, env).out)
  {
    assert StartSignal(0x00, RelayOffPin) == 0x00;
  }
}

=== FILE: controller.dfy ===
/** `state_machine`: the dispatch loop that runs the handler of the current
    state and moves to the state it returns, and the invariants every state
    it reaches satisfies. */
module Controller {
  import opened Pins
  import opened Handlers

  /** The controller's globals: the current state, `fault_count` and the
      PORTA.OUT register. */
  datatype Machine = Machine(state: State, faultCount: uint8, out: bv8)

  /** Power-on: START, with `fault_count` zero as every static global is,
      and PORTA.OUT at whatever level it has after reset. */
  function Init(resetOut: bv8): Machine {
    Machine(Start, 0, resetOut)
  }

  /** The transition table: the states the comment above each handler
      lists as its possible return states. HARD_GROUND_FAULT lists none. */
  function Successors(s: State): set<State> {
    match s
    case Start => {RelayOff}
    case RelayOff => {RelayEnable}
    case RelayEnable => {SoftGroundFault, RelayOn, ProbationaryRelayOn}
    case RelayOn => {SoftGroundFault, RelayDisable}
    case RelayDisable => {SoftGroundFault, RelayOff}
    case SoftGroundFault => {HardGroundFault, RelayEnable}
    case HardGroundFault => {}
    case ProbationaryRelayOn => {RelayDisable, SoftGroundFault, RelayOn}
  }

  /** One pass of the dispatch loop: the handler of the current state. It
      only ever returns a state of the transition table, and it never uses
      more samples than there are. The branch of `state_machine` for a value
      outside the enumeration cannot arise, since `State` is closed. */
  function Dispatch(m: Machine, env: seq<bv8>): (r: Outcome)
    ensures r.Returned? ==> r.next in Successors(m.state)
    ensures r.Returned? ==> r.used <= |env|
    ensures m.state == HardGroundFault ==> r.Waiting?
  {
    match m.state
    case Start => OnStart(m.faultCount, m.out, env)
    case RelayOff => OnRelayOff(m.faultCount, m.out, env)
    case RelayEnable => OnRelayEnable(m.faultCount, m.out, env)
    case RelayOn => OnRelayOn(m.faultCount, m.out, env)
    case RelayDisable => OnRelayDisable(m.faultCount, m.out, env)
    case SoftGroundFault => OnSoftGroundFault(m.faultCount, m.out, env)
    case HardGroundFault => OnHardGroundFault(m.faultCount, m.out, env)
    case ProbationaryRelayOn => OnProbationaryRelayOn(m.faultCount, m.out, env)
  }

  /** The machine together with the samples still to come. */
  datatype Config = Config(m: Machine, env: seq<bv8>)

  /** One iteration of the dispatch loop. When the handler is still polling
      at the end of the samples, the configuration stays as it is. */
  function Step(c: Config): (r: Config)
    ensures |r.env| <= |c.env|
  {
    match Dispatch(c.m, c.env)
    case Waiting(_, _) => c
    case Returned(next, count, out, used, _) => Config(Machine(next, count, out), c.env[used..])
  }

  /** `n` iterations of the dispatch loop. */
  function Run(c: Config, n: nat): Config
    decreases n
  {
    if n == 0 then c else Run(Step(c), n - 1)
  }

  /** What holds of the fault count in each state the loop dispatches on.
      RELAY_OFF, RELAY_ON and RELAY_DISABLE are only reached with no fault
      counted; PROBATIONARY_RELAY_ON only with some; HARD_GROUND_FAULT with
      exactly FAULT_LIMIT; every other state below FAULT_LIMIT. */
  predicate Inv(m: Machine) {
    match m.state
    case Start => m.faultCount == 0
    case RelayOff => m.faultCount == 0
    case RelayOn => m.faultCount == 0
    case RelayDisable => m.faultCount == 0
    case RelayEnable => m.faultCount as int < FAULT_LIMIT
    case SoftGroundFault => m.faultCount as int < FAULT_LIMIT
    case ProbationaryRelayOn => 0 < m.faultCount as int < FAULT_LIMIT
    case HardGroundFault => m.faultCount as int == FAULT_LIMIT
  }

  /** Each handler keeps the invariant. */
  lemma StepKeepsInv(c: Config)
    requires Inv(c.m)
    ensures Inv(Step(c).m)
  {
    var m := c.m;
    var r := Dispatch(m, c.env);
    match m.state
    case Start =>
    case RelayOff =>
    case RelayEnable =>
    case RelayOn =>
    case RelayDisable =>
    case SoftGroundFault =>
      assert m.faultCount as int < 255;
    case HardGroundFault =>
    case ProbationaryRelayOn =>
  }

  /** Every iteration of the loop keeps the invariant. */
  lemma {:induction false} RunKeepsInv(c: Config, n: nat)
    requires Inv(c.m)
    ensures Inv(Run(c, n).m)
    decreases n
  {
    if n > 0 {
      StepKeepsInv(c);
      RunKeepsInv(Step(c), n - 1);
    }
  }

  /** Every state reached from power-on satisfies the invariant; in
      particular the fault count stays below FAULT_LIMIT in every state but
      HARD_GROUND_FAULT, and never wraps around. */
  lemma ReachableBelowLimit(resetOut: bv8, env: seq<bv8>, n: nat)
    ensures Inv(Run(Config(Init(resetOut), env), n).m)
    ensures var m := Run(Config(Init(resetOut), env), n).m;
      m.state != HardGroundFault ==> m.faultCount as int < FAULT_LIMIT
  {
    RunKeepsInv(Config(Init(resetOut), env), n);
  }

  /** The first iteration after power-on runs `start`: the count is zero,
      the next state is RELAY_OFF, no sample is used, and whatever the reset
      level of PORTA.OUT, both coils are idle and no other line has moved. */
  lemma StartGoesToRelayOff(resetOut: bv8, env: seq<bv8>)
    ensures var c := Step(Config(Init(resetOut), env));
      && c.m.state == RelayOff && c.m.faultCount == 0 && c.env == env
      && CoilsIdle(c.m.out) && SameOutside(c.m.out, resetOut, CoilMask())
  {
  }

  /** HARD_GROUND_FAULT absorbs: however many iterations run and whatever
      the inputs do, the configuration does not change. */
  lemma {:induction false} HardGroundFaultAbsorbs(c: Config, n: nat)
    requires c.m.state == HardGroundFault
    ensures Run(c, n) == c
    decreases n
  {
    if n > 0 {
      assert Step(c) == c;
      HardGroundFaultAbsorbs(c, n - 1);
    }
  }

  /** From idle coils, an iteration of the loop leaves PORTA.OUT as it
      found it: the handlers that do not drive coils do not touch it, and
      the coil handlers release what they energise. */
  lemma StepKeepsOut(c: Config)
    requires CoilsIdle(c.m.out)
    ensures Step(c).m.out == c.m.out
  {
    match c.m.state
    case RelayEnable => ActuateRestores(c.m.out, c.env, RelayOffPin);
    case RelayDisable => ActuateRestores(c.m.out, c.env, RelayOnPin);
    case _ =>
  }

  /** From idle coils, PORTA.OUT at every dispatch is what it was at the
      start. */
  lemma {:induction false} RunKeepsOut(c: Config, n: nat)
    requires CoilsIdle(c.m.out)
    ensures Run(c, n).m.out == c.m.out
    decreases n
  {
    if n > 0 {
      StepKeepsOut(c);
      RunKeepsOut(Step(c), n - 1);
    }
  }

  /** From idle coils, one handler never has both coils energised: not in
      any coil window it runs through, and not where it is still polling. */
  lemma DispatchCoilsExclusive(m: Machine, env: seq<bv8>)
    requires CoilsIdle(m.out)
    ensures var r := Dispatch(m, env);
      r.Returned? ==> forall k :: 0 <= k < |r.held| ==> AtMostOneCoil(r.held[k])
    ensures AtMostOneCoil(Dispatch(m, env).out)
  {
    match m.state
    case RelayEnable =>
      ActuateExclusive(m.out, env, RelayOffPin);
      ActuateRestores(m.out, env, RelayOffPin);
    case RelayDisable =>
      ActuateExclusive(m.out, env, RelayOnPin);
      ActuateRestores(m.out, env, RelayOnPin);
    case _ =>
  }

  /** One handler run never has both coils energised: not at its end,
      and not in any coil window it went through. */
  predicate CoilsExclusive(r: Outcome) {
    && AtMostOneCoil(r.out)
    && (r.Returned? ==> forall k :: 0 <= k < |r.held| ==> AtMostOneCoil(r.held[k]))
  }

  /** The dispatch due at `c` keeps the coils exclusive. */
  predicate SafeAt(c: Config) {
    CoilsExclusive(Dispatch(c.m, c.env))
  }

  /** Coil mutual exclusion for a whole run: if PORTA.OUT starts with both
      coils idle, then at every later dispatch the handler never energises
      both coils at once. */
  lemma RunCoilsExclusive(c: Config, n: nat)
    requires CoilsIdle(c.m.out)
    ensures SafeAt(Run(c, n))
  {
    var d := Run(c, n);
    RunKeepsOut(c, n);
    DispatchCoilsExclusive(d.m, d.env);
  }

  /** The dispatch of `start` itself holds no coil window and leaves both
      coils idle. */
  lemma StartReleasesCoils(resetOut: bv8, env: seq<bv8>)
    ensures var r := Dispatch(Init(resetOut), env);
      r.Returned? && r.held == [] && CoilsIdle(r.out)
  {
    assert Dispatch(Init(resetOut), env) == OnStart(0, resetOut, env);
  }

  /** Coil mutual exclusion from power-on, whatever the reset level of
      PORTA.OUT: `start` releases both coils, and from then on no dispatch
      ever energises both coils at once. */
  lemma PowerOnCoilsExclusive(resetOut: bv8, env: seq<bv8>, n: nat)
    ensures SafeAt(Run(Config(Init(resetOut), env), n))
  {
    var c := Config(Init(resetOut), env);
    var d := Run(c, n);
    if n == 0 {
      StartReleasesCoils(resetOut, env);
    } else {
      var c1 := Step(c);
      StartGoesToRelayOff(resetOut, env);
      assert d == Run(c1, n - 1);
      RunCoilsExclusive(c1, n - 1);
    }
  }
}

=== FILE: handlers.dfy ===
/** The state handlers of the relay controller.

    Each handler of the source reads the input lines, drives the coil lines,
    updates the global `fault_count` and returns the next state. Here a
    handler is a pure function of the fault count and PORTA.OUT at entry and
    of the stream of PORTA.IN samples; it reports the next state, the new
    fault count and PORTA.OUT, how many samples (ticks) it used, and the
    PORTA.OUT level it held during each coil window. When the stream ends
    before the handler would return, it reports `Waiting` with the values
    the globals have while it is still polling. */
module Handlers {
  import opened Pins
  import opened Polling

  /** `enum State`. */
  datatype State =
    | Start
    | RelayOff
    | RelayEnable
    | RelayOn
    | RelayDisable
    | SoftGroundFault
    | HardGroundFault
    | ProbationaryRelayOn

  /** `fault_count` is a `uint8_t`. */
  newtype uint8 = x: int | 0 <= x < 256

  const FAULT_LIMIT: int := 20

  /** The three timed windows, in ticks of one millisecond
      (0.15 s, 15 s and 10 s). */
  const RELAY_POWER_TICKS: nat := 150
  const GROUND_FAULT_DELAY_TICKS: nat := 15000
  const PROBATION_TICKS: nat := 10000

  /** Both enable requests present: `is_high` over the two enable lines.
      The source passes a pin where `is_high` expects the number of lines;
      this is the call it means (see module AsWritten). */
  predicate Enabled(input: bv8) {
    AllHigh(input, [OpenwrtPin, EbikePin])
  }

  /** A ground fault is sensed: `!is_high(GFI_PIN)`, the reading of
      `relay_enable`, `relay_disable` and `probationary_relay_on`.
      `relay_on` reads the line the other way round (see module AsWritten). */
  predicate FaultActive(input: bv8) {
    !AllHigh(input, [GfiPin])
  }

  /** The exit condition of the loops in `relay_on` and
      `probationary_relay_on`: an enable request went away, or a fault. */
  predicate LeavesOn(input: bv8) {
    !Enabled(input) || FaultActive(input)
  }

  /** What one run of a handler comes to. */
  datatype Outcome =
    | Returned(next: State, faultCount: uint8, out: bv8, used: nat, held: seq<bv8>)
    | Waiting(faultCount: uint8, out: bv8)

  /** How a pair of coil windows ends. */
  datatype Actuation =
    | Tripped(out: bv8, used: nat, held: seq<bv8>)  // a fault cut a window short
    | Completed(out: bv8, held: seq<bv8>)           // both windows ran out
    | Energised(held: seq<bv8>)                     // the stream ended inside a window

  /** The shared body of `relay_enable` and `relay_disable`: energise `first`
      for RELAY_POWER_TICKS, release it, energise the other coil for
      RELAY_POWER_TICKS, release it. Every tick of each window checks for a
      ground fault; a fault releases the coil being driven and ends the
      sequence. `held` lists the PORTA.OUT level of each window entered. */
  function Actuate(out: bv8, env: seq<bv8>, first: Pin): (r: Actuation)
    requires IsCoil(first)
    // The windows: completion iff no fault in 2 * RELAY_POWER_TICKS ticks.
    ensures r.Completed?
        <==> 2 * RELAY_POWER_TICKS <= |env|
             && forall j :: 0 <= j < 2 * RELAY_POWER_TICKS ==> !FaultActive(env[j])
    ensures r.Tripped? ==> 0 < r.used <= 2 * RELAY_POWER_TICKS && r.used <= |env|
    ensures r.Tripped? ==> FaultActive(env[r.used - 1])
    ensures r.Tripped? ==> forall j :: 0 <= j < r.used - 1 ==> !FaultActive(env[j])
    ensures r.Energised? ==> |env| < 2 * RELAY_POWER_TICKS
    ensures r.Energised? ==> forall j :: 0 <= j < |env| ==> !FaultActive(env[j])
    // Which windows were entered.
    ensures 1 <= |r.held| <= 2
    ensures r.Completed? ==> |r.held| == 2
    ensures r.Tripped? ==> (|r.held| == 1 <==> r.used <= RELAY_POWER_TICKS)
    ensures r.Energised? ==> (|r.held| == 1 <==> |env| < RELAY_POWER_TICKS)
  {
    var second := OtherCoil(first);
    var o1 := StartSignal(out, first);
    match FirstHit(env, RELAY_POWER_TICKS, FaultActive)
    case Starved => Energised([o1])
    case Hit(i) => Tripped(StopSignal(o1, first), i + 1, [o1])
    case Expired =>
      var o2 := StartSignal(StopSignal(o1, first), second);
      match FirstHit(env[RELAY_POWER_TICKS..], RELAY_POWER_TICKS, FaultActive)
      case Starved => Energised([o1, o2])
      case Hit(i) => Tripped(StopSignal(o2, second), RELAY_POWER_TICKS + i + 1, [o1, o2])
      case Expired => Completed(StopSignal(o2, second), [o1, o2])
  }

  /** The first coil window energises `first` on top of the entry level
      of PORTA.OUT and changes nothing else. */
  lemma ActuateFirstWindow(out: bv8, env: seq<bv8>, first: Pin)
    requires IsCoil(first)
    ensures var r := Actuate(out, env, first);
      Asserted(r.held[0], first) && SameOutside(r.held[0], out, Mask(first))
  {
  }

  /** The second coil window has released `first` and energises the other
      coil; only coil bits differ from the entry level. */
  lemma ActuateSecondWindow(out: bv8, env: seq<bv8>, first: Pin)
    requires IsCoil(first)
    ensures var r := Actuate(out, env, first);
      |r.held| == 2 ==>
        && Asserted(r.held[1], OtherCoil(first))
        && !Asserted(r.held[1], first)
        && SameOutside(r.held[1], out, CoilMask())
  {
    var o1 := StartSignal(out, first);
    match FirstHit(env, RELAY_POWER_TICKS, FaultActive)
    case Starved =>
    case Hit(i) =>
    case Expired =>
      Handover(out, first, OtherCoil(first));
  }

  /** Every exit of the coil sequence releases the coils it drove: `first`
      always, and after a completed sequence both coils. Nothing outside
      the coil bits differs from the entry level. */
  lemma ActuateReleases(out: bv8, env: seq<bv8>, first: Pin)
    requires IsCoil(first)
    ensures var r := Actuate(out, env, first);
      !r.Energised? ==> !Asserted(r.out, first) && SameOutside(r.out, out, CoilMask())
    ensures var r := Actuate(out, env, first);
      |r.held| == 2 && !r.Energised? ==> CoilsIdle(r.out)
  {
    var second := OtherCoil(first);
    var o1 := StartSignal(out, first);
    PulseReleases(out, first);
    match FirstHit(env, RELAY_POWER_TICKS, FaultActive)
    case Starved =>
    case Hit(i) =>
    case Expired =>
      var o2 := StartSignal(StopSignal(o1, first), second);
      Handover(out, first, second);
      HandoverReleases(o2, out, first, second);
  }

  /** From idle coils, each coil window energises exactly one coil: `first`
      in the first window, the other one in the second. */
  lemma ActuateExclusive(out: bv8, env: seq<bv8>, first: Pin)
    requires IsCoil(first) && CoilsIdle(out)
    ensures var r := Actuate(out, env, first);
      forall k :: 0 <= k < |r.held| ==> OnlyAsserted(r.held[k], if k == 0 then first else OtherCoil(first))
  {
    var r := Actuate(out, env, first);
    ActuateFirstWindow(out, env, first);
    ActuateSecondWindow(out, env, first);
    SameOutsideKeeps(r.held[0], out, Mask(first), OtherCoil(first));
  }

  /** From idle coils, the coil sequence leaves PORTA.OUT exactly as it
      found it on every exit, whether a fault cut it short or not. */
  lemma ActuateRestores(out: bv8, env: seq<bv8>, first: Pin)
    requires IsCoil(first) && CoilsIdle(out)
    ensures var r := Actuate(out, env, first);
      !r.Energised? ==> r.out == out
  {
    StopUndoesStart(out, first);
    HandoverRestores(out, first, OtherCoil(first));
  }

  /** `start`: clears the fault count and goes to RELAY_OFF at once, with
      both coils released. The source's `start` never writes PORTA.OUT and
      so leaves the coils at their reset level (see module AsWritten). The
      port set-up it also performs is not part of this model. */
  function OnStart(faultCount: uint8, out: bv8, env: seq<bv8>): (r: Outcome)
    ensures r.Returned? && r.next == RelayOff
    ensures r.faultCount == 0 && r.used == 0 && r.held == []
    ensures CoilsIdle(r.out) && SameOutside(r.out, out, CoilMask())
    ensures CoilsIdle(out) ==> r.out == out
  {
    Returned(RelayOff, 0, ReleaseCoils(out), 0, [])
  }

  /** `relay_off`: waits until both enable requests are present, then goes
      to RELAY_ENABLE. */
  function OnRelayOff(faultCount: uint8, out: bv8, env: seq<bv8>): (r: Outcome)
    ensures r.faultCount == faultCount && r.out == out
    ensures r.Returned? <==> exists j :: 0 <= j < |env| && Enabled(env[j])
    ensures r.Returned? ==> r.next == RelayEnable && r.held == []
    ensures r.Returned? ==> 0 < r.used <= |env| && Enabled(env[r.used - 1])
    ensures r.Returned? ==> forall j :: 0 <= j < r.used - 1 ==> !Enabled(env[j])
  {
    match PollUntil(env, Enabled)
    case Hit(i) => Returned(RelayEnable, faultCount, out, i + 1, [])
    case _ => Waiting(faultCount, out)
  }

  /** `relay_enable`: drives the OFF coil, then the ON coil, each for
      RELAY_POWER_TICKS while watching for a ground fault. A fault goes to
      SOFT_GROUND_FAULT; otherwise RELAY_ON when no fault has been counted
      and PROBATIONARY_RELAY_ON when one has. */
  function OnRelayEnable(faultCount: uint8, out: bv8, env: seq<bv8>): (r: Outcome)
    ensures r.faultCount == faultCount
    ensures r.Returned? ==> r.next in {SoftGroundFault, RelayOn, ProbationaryRelayOn}
    ensures r.Returned?
        <==> 2 * RELAY_POWER_TICKS <= |env|
             || exists j :: 0 <= j < 2 * RELAY_POWER_TICKS && j < |env| && FaultActive(env[j])
    ensures r.Returned? ==>
      ((r.next == SoftGroundFault)
         <==> exists j :: 0 <= j < 2 * RELAY_POWER_TICKS && j < |env| && FaultActive(env[j]))
    ensures r.Returned? ==> 0 < r.used <= |env| && r.used <= 2 * RELAY_POWER_TICKS
    ensures r.Returned? && r.next == SoftGroundFault ==> FaultActive(env[r.used - 1])
    ensures r.Returned? && r.next != SoftGroundFault ==>
      r.used == 2 * RELAY_POWER_TICKS && (r.next == RelayOn <==> faultCount == 0)
  {
    var a := Actuate(out, env, RelayOffPin);
    FirstHitIffSome(env, 2 * RELAY_POWER_TICKS, FaultActive);
    match a
    case Energised(held) => Waiting(faultCount, held[|held| - 1])
    case Tripped(o, used, held) => Returned(SoftGroundFault, faultCount, o, used, held)
    case Completed(o, held) =>
      Returned(if faultCount == 0 then RelayOn else ProbationaryRelayOn,
               faultCount, o, 2 * RELAY_POWER_TICKS, held)
  }

  /** `relay_on`: holds the relay closed while both enable requests are
      present and no fault is sensed. An enable request going away goes to
      RELAY_DISABLE (checked first); a fault goes to SOFT_GROUND_FAULT. */
  function OnRelayOn(faultCount: uint8, out: bv8, env: seq<bv8>): (r: Outcome)
    ensures r.faultCount == faultCount && r.out == out
    ensures r.Returned? <==> exists j :: 0 <= j < |env| && LeavesOn(env[j])
    ensures r.Returned? ==> r.next in {RelayDisable, SoftGroundFault} && r.held == []
    ensures r.Returned? ==> 0 < r.used <= |env|
    ensures r.Returned? ==> forall j :: 0 <= j < r.used - 1 ==> Enabled(env[j]) && !FaultActive(env[j])
    ensures r.Returned? ==> (r.next == RelayDisable <==> !Enabled(env[r.used - 1]))
    ensures r.Returned? ==>
      (r.next == SoftGroundFault <==> Enabled(env[r.used - 1]) && FaultActive(env[r.used - 1]))
  {
    match PollUntil(env, LeavesOn)
    case Hit(i) =>
      Returned(if !Enabled(env[i]) then RelayDisable else SoftGroundFault, faultCount, out, i + 1, [])
    case _ => Waiting(faultCount, out)
  }

  /** `relay_disable`: drives the ON coil, then the OFF coil, each for
      RELAY_POWER_TICKS while watching for a ground fault. A fault goes to
      SOFT_GROUND_FAULT, otherwise RELAY_OFF. The fault count is left as it
      is. */
  function OnRelayDisable(faultCount: uint8, out: bv8, env: seq<bv8>): (r: Outcome)
    ensures r.faultCount == faultCount
    ensures r.Returned? ==> r.next in {SoftGroundFault, RelayOff}
    ensures r.Returned?
        <==> 2 * RELAY_POWER_TICKS <= |env|
             || exists j :: 0 <= j < 2 * RELAY_POWER_TICKS && j < |env| && FaultActive(env[j])
    ensures r.Returned? ==>
      ((r.next == SoftGroundFault)
         <==> exists j :: 0 <= j < 2 * RELAY_POWER_TICKS && j < |env| && FaultActive(env[j]))
    ensures r.Returned? ==> 0 < r.used <= |env| && r.used <= 2 * RELAY_POWER_TICKS
    ensures r.Returned? && r.next == SoftGroundFault ==> FaultActive(env[r.used - 1])
    ensures r.Returned? && r.next == RelayOff ==> r.used == 2 * RELAY_POWER_TICKS
  {
    var a := Actuate(out, env, RelayOnPin);
    FirstHitIffSome(env, 2 * RELAY_POWER_TICKS, FaultActive);
    match a
    case Energised(held) => Waiting(faultCount, held[|held| - 1])
    case Tripped(o, used, held) => Returned(SoftGroundFault, faultCount, o, used, held)
    case Completed(o, held) => Returned(RelayOff, faultCount, o, 2 * RELAY_POWER_TICKS, held)
  }

  /** `soft_ground_fault`: counts the fault (an eight-bit increment). At
      FAULT_LIMIT faults it goes to HARD_GROUND_FAULT at once; below it, it
      waits GROUND_FAULT_DELAY_TICKS and goes back to RELAY_ENABLE. */
  function OnSoftGroundFault(faultCount: uint8, out: bv8, env: seq<bv8>): (r: Outcome)
    ensures r.out == out
    ensures r.faultCount as int == (faultCount as int + 1) % 256
    ensures faultCount as int < 255 ==> r.faultCount as int == faultCount as int + 1
    ensures r.Returned? ==> r.next in {HardGroundFault, RelayEnable} && r.held == []
    ensures r.Returned? ==> (r.next == HardGroundFault <==> r.faultCount as int >= FAULT_LIMIT)
    ensures r.Waiting? <==> r.faultCount as int < FAULT_LIMIT && |env| < GROUND_FAULT_DELAY_TICKS
    ensures r.Returned? && r.next == HardGroundFault ==> r.used == 0
    ensures r.Returned? && r.next == RelayEnable ==> r.used == GROUND_FAULT_DELAY_TICKS
  {
    var count := ((faultCount as int + 1) % 256) as uint8;
    if count as int >= FAULT_LIMIT then Returned(HardGroundFault, count, out, 0, [])
    else if |env| < GROUND_FAULT_DELAY_TICKS then Waiting(count, out)
    else Returned(RelayEnable, count, out, GROUND_FAULT_DELAY_TICKS, [])
  }

  /** `probationary_relay_on`: keeps the relay closed for PROBATION_TICKS.
      An enable request going away (checked first) clears the fault count
      and goes to RELAY_DISABLE; a fault goes to SOFT_GROUND_FAULT with the
      count kept, so that it adds to the earlier ones; a quiet window clears
      the count and goes to RELAY_ON. */
  function OnProbationaryRelayOn(faultCount: uint8, out: bv8, env: seq<bv8>): (r: Outcome)
    ensures r.out == out
    ensures r.Returned? ==> r.next in {RelayDisable, SoftGroundFault, RelayOn} && r.held == []
    ensures r.Returned? ==> 0 < r.used <= |env| && r.used <= PROBATION_TICKS
    ensures r.Returned? ==> forall j :: 0 <= j < r.used - 1 ==> Enabled(env[j]) && !FaultActive(env[j])
    ensures r.Returned? && r.next == RelayDisable ==> !Enabled(env[r.used - 1]) && r.faultCount == 0
    ensures r.Returned? && r.next == SoftGroundFault ==>
      Enabled(env[r.used - 1]) && FaultActive(env[r.used - 1]) && r.faultCount == faultCount
    ensures (r.Returned? && r.next == RelayOn)
        <==> PROBATION_TICKS <= |env| && forall j :: 0 <= j < PROBATION_TICKS ==> !LeavesOn(env[j])
    ensures r.Returned? && r.next == RelayOn ==> r.used == PROBATION_TICKS && r.faultCount == 0
    ensures r.Waiting? <==> |env| < PROBATION_TICKS && forall j :: 0 <= j < |env| ==> !LeavesOn(env[j])
    ensures r.Waiting? ==> r.faultCount == faultCount
  {
    match FirstHit(env, PROBATION_TICKS, LeavesOn)
    case Hit(i) =>
      if !Enabled(env[i]) then Returned(RelayDisable, 0, out, i + 1, [])
      else Returned(SoftGroundFault, faultCount, out, i + 1, [])
    case Expired => Returned(RelayOn, 0, out, PROBATION_TICKS, [])
    case Starved => Waiting(faultCount, out)
  }

  /** `hard_ground_fault`: spins for ever; it never returns and changes
      nothing. */
  function OnHardGroundFault(faultCount: uint8, out: bv8, env: seq<bv8>): (r: Outcome)
    ensures r.Waiting? && r.faultCount == faultCount && r.out == out
  {
    Waiting(faultCount, out)
  }
}

=== FILE: pins.dfy ===
/** The PORTA lines the controller uses and the register-level helpers
    `is_high`, `start_signal`, `stop_signal` and `update_status_pins`.

    PORTA.IN and PORTA.OUT are eight-bit registers; a line is one bit of
    them, selected by a one-hot mask. */
module Pins {

  /** The seven PORTA lines, in the order of their bit positions PA1..PA7. */
  datatype Pin =
    | OpenwrtPin        // input: enable request from the OpenWRT side
    | EbikePin          // input: enable request from the e-bike side
    | RelayOnPin        // output: driver of the coil that closes the relay
    | RelayOffPin       // output: driver of the coil that opens the relay
    | GfiPin            // input: ground-fault interrupt sensor
    | OpenwrtStatusPin  // output: mirror of OpenwrtPin
    | EbikeStatusPin    // output: mirror of EbikePin

  /** Bit position of a line in PORTA (the PAk of the pin comments). */
  function Index(p: Pin): (k: nat)
    ensures 1 <= k <= 7
  {
    match p
    case OpenwrtPin => 1
    case EbikePin => 2
    case RelayOnPin => 3
    case RelayOffPin => 4
    case GfiPin => 5
    case OpenwrtStatusPin => 6
    case EbikeStatusPin => 7
  }

  /** The one-hot mask of a line, `1 << k` for its bit position k. The
      source writes `1 < k` instead; that reading is kept apart in module
      AsWritten. */
  function Mask(p: Pin): bv8 {
    match p
    case OpenwrtPin => 0x02
    case EbikePin => 0x04
    case RelayOnPin => 0x08
    case RelayOffPin => 0x10
    case GfiPin => 0x20
    case OpenwrtStatusPin => 0x40
    case EbikeStatusPin => 0x80
  }

  /** Every mask selects exactly one bit, and different lines select
      different bits. */
  lemma MasksOneHot(p: Pin, q: Pin)
    ensures Mask(p) == (1 as bv8) << Index(p)
    ensures Mask(p) != 0
    ensures Mask(p) & (Mask(p) - 1) == 0
    ensures p != q ==> Mask(p) & Mask(q) == 0
  {
  }

  /** Does line `p` read as 1 in register value `x`? */
  predicate Bit(x: bv8, p: Pin) {
    x & Mask(p) != 0
  }

  /** `a` and `b` agree on every bit outside `m`. */
  predicate SameOutside(a: bv8, b: bv8, m: bv8) {
    a | m == b | m
  }

  /** Registers that agree outside `m` agree on every line whose bit lies
      outside `m`. */
  lemma SameOutsideKeeps(a: bv8, b: bv8, m: bv8, q: Pin)
    requires SameOutside(a, b, m) && Mask(q) & m == 0
    ensures Bit(a, q) == Bit(b, q)
  {
  }

  /** What `is_high` computes: every listed line reads as 0.
      Vacuously true of the empty list. */
  predicate AllHigh(x: bv8, pins: seq<Pin>) {
    forall i :: 0 <= i < |pins| ==> !Bit(x, pins[i])
  }

  /** `is_high`: scans the listed lines and clears the result as soon as
      one of them reads as 1. */
  method IsHigh(x: bv8, pins: seq<Pin>) returns (output: bool)
    ensures output <==> AllHigh(x, pins)
    ensures pins == [] ==> output
    ensures output <==> forall i :: 0 <= i < |pins| ==> x & Mask(pins[i]) == 0
  {
    output := true;
    var i := 0;
    while i < |pins|
      invariant 0 <= i <= |pins|
      invariant output <==> AllHigh(x, pins[..i])
    {
      if x & Mask(pins[i]) != 0 {
        output := false;
      }
      i := i + 1;
    }
    assert pins[..i] == pins;
  }

  /** The two coil driver lines. */
  predicate IsCoil(p: Pin) {
    p == RelayOnPin || p == RelayOffPin
  }

  /** The coil driven second by the handler that drives `coil` first. */
  function OtherCoil(coil: Pin): (r: Pin)
    requires IsCoil(coil)
    ensures IsCoil(r) && r != coil
  {
    if coil == RelayOnPin then RelayOffPin else RelayOnPin
  }

  /** Both coil driver bits, the part of PORTA.OUT the coil handlers own. */
  function CoilMask(): bv8 {
    Mask(RelayOnPin) | Mask(RelayOffPin)
  }

  /** The coil drivers are active-low: a coil is energised while its bit
      of PORTA.OUT is 0. */
  predicate Asserted(out: bv8, coil: Pin) {
    !Bit(out, coil)
  }

  /** Neither coil is energised. */
  predicate CoilsIdle(out: bv8) {
    !Asserted(out, RelayOnPin) && !Asserted(out, RelayOffPin)
  }

  /** Exactly the coil `coil` is energised. */
  predicate OnlyAsserted(out: bv8, coil: Pin) {
    && IsCoil(coil)
    && Asserted(out, coil)
    && !Asserted(out, OtherCoil(coil))
  }

  /** `start_signal`: energises the named coil by clearing its output bit;
      any other line leaves the register as it is. */
  function StartSignal(out: bv8, pin: Pin): (r: bv8)
    ensures IsCoil(pin) ==> Asserted(r, pin) && SameOutside(r, out, Mask(pin))
    ensures !IsCoil(pin) ==> r == out
  {
    if pin == RelayOnPin then out & !Mask(RelayOnPin)
    else if pin == RelayOffPin then out & !Mask(RelayOffPin)
    else out
  }

  /** `stop_signal`: releases the named coil by setting its output bit;
      any other line leaves the register as it is. */
  function StopSignal(out: bv8, pin: Pin): (r: bv8)
    ensures IsCoil(pin) ==> !Asserted(r, pin) && SameOutside(r, out, Mask(pin))
    ensures !IsCoil(pin) ==> r == out
  {
    if pin == RelayOnPin then out | Mask(RelayOnPin)
    else if pin == RelayOffPin then out | Mask(RelayOffPin)
    else out
  }

  /** Releasing a coil undoes energising it, bit for bit, when the coil was
      idle before. */
  lemma StopUndoesStart(out: bv8, coil: Pin)
    requires IsCoil(coil) && !Asserted(out, coil)
    ensures StopSignal(StartSignal(out, coil), coil) == out
  {
    var s := StartSignal(out, coil);
    var r := StopSignal(s, coil);
    assert SameOutside(r, out, Mask(coil));
    assert r & Mask(coil) == Mask(coil) == out & Mask(coil);
  }

  /** Energising a coil and releasing it again leaves that coil idle and
      the rest of the register as it was. */
  lemma PulseReleases(out: bv8, coil: Pin)
    requires IsCoil(coil)
    ensures var r := StopSignal(StartSignal(out, coil), coil);
      !Asserted(r, coil) && SameOutside(r, out, CoilMask())
  {
  }

  /** Handing over from one coil to the other: after `first` is energised
      and released and `second` is energised, only `second` is energised
      and nothing outside the coil bits has moved. */
  lemma Handover(out: bv8, first: Pin, second: Pin)
    requires IsCoil(first) && IsCoil(second) && first != second
    ensures var r := StartSignal(StopSignal(StartSignal(out, first), first), second);
      Asserted(r, second) && !Asserted(r, first) && SameOutside(r, out, CoilMask())
  {
  }

  /** Releasing `second` after a handover leaves both coils idle. */
  lemma HandoverReleases(held: bv8, out: bv8, first: Pin, second: Pin)
    requires IsCoil(first) && IsCoil(second) && first != second
    requires !Asserted(held, first) && SameOutside(held, out, CoilMask())
    ensures var r := StopSignal(held, second);
      CoilsIdle(r) && SameOutside(r, out, CoilMask())
  {
  }

  /** From idle coils, the full hand-over sequence (energise and release
      `first`, energise and release `second`) ends where it started. */
  lemma HandoverRestores(out: bv8, first: Pin, second: Pin)
    requires IsCoil(first) && IsCoil(second) && first != second && CoilsIdle(out)
    ensures StopSignal(StartSignal(StopSignal(StartSignal(out, first), first), second), second) == out
  {
    StopUndoesStart(out, first);
    StopUndoesStart(out, second);
  }

  /** At most one coil is energised. */
  predicate AtMostOneCoil(out: bv8) {
    !(Asserted(out, RelayOnPin) && Asserted(out, RelayOffPin))
  }

  /** Both coils released, `stop_signal` on each coil line: the level a
      start-up routine has to drive before the first coil window, since the
      reset level of PORTA.OUT has both active-low coils energised. On a
      register whose coils are already idle it changes nothing. */
  function ReleaseCoils(out: bv8): (r: bv8)
    ensures CoilsIdle(r) && SameOutside(r, out, CoilMask())
    ensures CoilsIdle(out) ==> r == out
  {
    StopSignal(StopSignal(out, RelayOnPin), RelayOffPin)
  }

  /** Both status bits. */
  function StatusMask(): bv8 {
    Mask(OpenwrtStatusPin) | Mask(EbikeStatusPin)
  }

  /** Drives output line `dst` to the level input line `src` reads, one
      half of `update_status_pins`. */
  function Mirror(input: bv8, out: bv8, src: Pin, dst: Pin): (r: bv8)
    ensures Bit(r, dst) == Bit(input, src)
    ensures SameOutside(r, out, Mask(dst))
  {
    if input & Mask(src) != 0 then out | Mask(dst) else out & !Mask(dst)
  }

  /** `update_status_pins`: copies each enable input onto its status
      output and leaves every other output bit alone. */
  function UpdateStatusPins(input: bv8, out: bv8): (r: bv8)
    ensures Bit(r, OpenwrtStatusPin) == Bit(input, OpenwrtPin)
    ensures Bit(r, EbikeStatusPin) == Bit(input, EbikePin)
    ensures SameOutside(r, out, StatusMask())
  {
    var o := Mirror(input, out, OpenwrtPin, OpenwrtStatusPin);
    Mirror(input, o, EbikePin, EbikeStatusPin)
  }

  /** The status bits depend on the inputs only: two registers that agree
      outside the status bits end up equal. Hence updating twice is the
      same as updating once. */
  lemma UpdateStatusPinsDeterminedByInputs(input: bv8, a: bv8, b: bv8)
    requires SameOutside(a, b, StatusMask())
    ensures UpdateStatusPins(input, a) == UpdateStatusPins(input, b)
  {
    var ra := UpdateStatusPins(input, a);
    var rb := UpdateStatusPins(input, b);
    assert SameOutside(ra, rb, StatusMask());
    assert ra & StatusMask() == rb & StatusMask();
  }

  lemma UpdateStatusPinsIdempotent(input: bv8, out: bv8)
    ensures UpdateStatusPins(input, UpdateStatusPins(input, out)) == UpdateStatusPins(input, out)
  {
    UpdateStatusPinsDeterminedByInputs(input, UpdateStatusPins(input, out), out);
  }
}

=== FILE: polling.dfy ===
/** The busy-wait loops of the controller, over a finite stream of samples.

    Time is counted in ticks of one millisecond, and the controller reads
    PORTA.IN once per tick, so the environment is a sequence of register
    samples, one per tick. A timed window of `limit` ticks is the next
    `limit` samples; an unbounded wait is a window as long as the stream. */
module Polling {

  /** How a poll loop over a window ends. */
  datatype Scan =
    | Hit(at: nat)   // sample `at` met the exit condition first
    | Expired        // the whole window passed without meeting it
    | Starved        // the stream ended inside the window without meeting it

  /** Polls `stop` on the samples of a window of `limit` ticks and reports
      the first sample that meets it. */
  function FirstHit(env: seq<bv8>, limit: nat, stop: bv8 -> bool): (r: Scan)
    ensures r.Hit? ==> r.at < limit && r.at < |env| && stop(env[r.at])
    ensures r.Hit? ==> forall j :: 0 <= j < r.at ==> !stop(env[j])
    ensures r.Expired? ==> limit <= |env| && forall j :: 0 <= j < limit ==> !stop(env[j])
    ensures r.Starved? ==> |env| < limit && forall j :: 0 <= j < |env| ==> !stop(env[j])
    decreases limit
  {
    if limit == 0 then Expired
    else if |env| == 0 then Starved
    else if stop(env[0]) then Hit(0)
    else
      match FirstHit(env[1..], limit - 1, stop)
      case Hit(i) => Hit(i + 1)
      case Expired => Expired
      case Starved => Starved
  }

  /** The three ends of a window are told apart by the samples alone: it is
      a hit exactly when some sample inside the window meets `stop`. */
  lemma FirstHitIffSome(env: seq<bv8>, limit: nat, stop: bv8 -> bool)
    ensures FirstHit(env, limit, stop).Hit?
        <==> exists j :: 0 <= j < limit && j < |env| && stop(env[j])
    ensures FirstHit(env, limit, stop).Expired?
        <==> limit <= |env| && forall j :: 0 <= j < limit ==> !stop(env[j])
  {
    var r := FirstHit(env, limit, stop);
    if r.Hit? {
      assert stop(env[r.at]);
    }
  }

  /** An unbounded wait (`while (1)` around the check): a window as long as
      the samples at hand. It returns `Expired` when none of them met the
      exit condition, meaning the loop would still be waiting. */
  function PollUntil(env: seq<bv8>, stop: bv8 -> bool): (r: Scan)
    ensures !r.Starved?
    ensures r.Hit? <==> exists j :: 0 <= j < |env| && stop(env[j])
    ensures r.Hit? ==> r.at < |env| && stop(env[r.at])
    ensures r.Hit? ==> forall j :: 0 <= j < r.at ==> !stop(env[j])
  {
    FirstHitIffSome(env, |env|, stop);
    FirstHit(env, |env|, stop)
  }
}

=== FILE: scenarios.dfy ===
/** Whole runs of the dispatch loop: the controller's expected behaviour
    on typical input histories. */
module Scenarios {
  import opened Pins
  import opened Handlers
  import opened Controller

  /** While no sample carries both enable requests, RELAY_OFF never moves. */
  lemma {:induction false} RelayOffStaysOff(c: Config, n: nat)
    requires c.m.state == RelayOff
    requires forall j :: 0 <= j < |c.env| ==> !Enabled(c.env[j])
    ensures Run(c, n) == c
    decreases n
  {
    if n > 0 {
      assert Step(c) == c;
      RelayOffStaysOff(c, n - 1);
    }
  }

  /** RELAY_ENABLE with no fault over both windows: the OFF coil alone,
      then the ON coil alone, each for RELAY_POWER_TICKS, and PORTA.OUT back
      where it was. */
  lemma CleanEnable(k: uint8, out: bv8, env: seq<bv8>)
    requires CoilsIdle(out)
    requires 2 * RELAY_POWER_TICKS <= |env|
    requires forall j :: 0 <= j < |env| ==> !FaultActive(env[j])
    ensures var r := OnRelayEnable(k, out, env);
      && r.Returned? && r.used == 2 * RELAY_POWER_TICKS && r.out == out && r.faultCount == k
      && r.next == (if k == 0 then RelayOn else ProbationaryRelayOn)
      && |r.held| == 2
      && OnlyAsserted(r.held[0], RelayOffPin) && OnlyAsserted(r.held[1], RelayOnPin)
  {
    ActuateRestores(out, env, RelayOffPin);
    ActuateExclusive(out, env, RelayOffPin);
    assert Actuate(out, env, RelayOffPin).Completed?;
  }

  /** Both requests present and no fault: RELAY_OFF goes to RELAY_ENABLE on
      the first sample, and RELAY_ENABLE energises the OFF coil alone, then
      the ON coil alone, each for RELAY_POWER_TICKS, and closes the relay
      into RELAY_ON with PORTA.OUT back where it was. */
  lemma CleanEnableClosesRelay(out: bv8, env: seq<bv8>)
    requires CoilsIdle(out)
    requires 1 + 2 * RELAY_POWER_TICKS <= |env|
    requires forall j :: 0 <= j < |env| ==> Enabled(env[j]) && !FaultActive(env[j])
    ensures Step(Config(Machine(RelayOff, 0, out), env)) == Config(Machine(RelayEnable, 0, out), env[1..])
    ensures Run(Config(Machine(RelayOff, 0, out), env), 2)
         == Config(Machine(RelayOn, 0, out), env[1 + 2 * RELAY_POWER_TICKS..])
  {
    assert Enabled(env[0]);
    var c := Config(Machine(RelayOff, 0, out), env);
    var c1 := Config(Machine(RelayEnable, 0, out), env[1..]);
    assert Dispatch(c.m, c.env) == OnRelayOff(0, out, env);
    assert Step(c) == c1;
    CleanEnable(0, out, env[1..]);
    assert Dispatch(c1.m, c1.env) == OnRelayEnable(0, out, env[1..]);
    assert env[1..][2 * RELAY_POWER_TICKS..] == env[1 + 2 * RELAY_POWER_TICKS..];
    assert Run(c, 2) == Step(Step(c));
  }

  /** A fault on the first sample of RELAY_ENABLE releases the OFF coil and
      goes to SOFT_GROUND_FAULT after one sample, count unchanged. */
  lemma FaultTripsEnable(k: uint8, out: bv8, env: seq<bv8>)
    requires CoilsIdle(out)
    requires |env| > 0 && FaultActive(env[0])
    ensures Step(Config(Machine(RelayEnable, k, out), env)) == Config(Machine(SoftGroundFault, k, out), env[1..])
  {
    ActuateRestores(out, env, RelayOffPin);
    var r := OnRelayEnable(k, out, env);
    assert r.Returned? && r.next == SoftGroundFault && r.used == 1;
    assert Dispatch(Machine(RelayEnable, k, out), env) == r;
  }

  /** SOFT_GROUND_FAULT below the limit counts the fault and, after
      GROUND_FAULT_DELAY_TICKS samples, goes back to RELAY_ENABLE. */
  lemma SoftFaultRetries(k: uint8, out: bv8, env: seq<bv8>)
    requires k as int + 1 < FAULT_LIMIT
    requires GROUND_FAULT_DELAY_TICKS <= |env|
    ensures Step(Config(Machine(SoftGroundFault, k, out), env))
         == Config(Machine(RelayEnable, k + 1, out), env[GROUND_FAULT_DELAY_TICKS..])
  {
    assert Dispatch(Machine(SoftGroundFault, k, out), env) == OnSoftGroundFault(k, out, env);
  }

  /** A fault on the first sample of RELAY_ENABLE counts one fault, waits
      out GROUND_FAULT_DELAY_TICKS in SOFT_GROUND_FAULT and retries. */
  lemma FaultDuringEnableRetries(k: uint8, out: bv8, env: seq<bv8>)
    requires k as int + 1 < FAULT_LIMIT
    requires CoilsIdle(out)
    requires 1 + GROUND_FAULT_DELAY_TICKS <= |env| && FaultActive(env[0])
    ensures Run(Config(Machine(RelayEnable, k, out), env), 2)
         == Config(Machine(RelayEnable, k + 1, out), env[1 + GROUND_FAULT_DELAY_TICKS..])
  {
    var c := Config(Machine(RelayEnable, k, out), env);
    FaultTripsEnable(k, out, env);
    SoftFaultRetries(k, out, env[1..]);
    assert env[1..][GROUND_FAULT_DELAY_TICKS..] == env[1 + GROUND_FAULT_DELAY_TICKS..];
    assert Run(c, 2) == Step(Step(c));
  }

  /** `n` fault episodes in a row: each a faulty sample followed by
      GROUND_FAULT_DELAY_TICKS more samples. */
  ghost predicate FaultEpisodes(env: seq<bv8>, n: nat)
    decreases n
  {
    n == 0 ||
    (&& 1 + GROUND_FAULT_DELAY_TICKS <= |env|
     && FaultActive(env[0])
     && FaultEpisodes(env[1 + GROUND_FAULT_DELAY_TICKS..], n - 1))
  }

  /** FAULT_LIMIT faults in a row escalate: from RELAY_ENABLE with `k`
      faults counted, FAULT_LIMIT - k further fault episodes take the
      controller to HARD_GROUND_FAULT with exactly FAULT_LIMIT faults, two
      iterations per episode. */
  lemma {:induction false} RepeatedFaultsEscalate(k: uint8, out: bv8, env: seq<bv8>)
    requires k as int < FAULT_LIMIT
    requires CoilsIdle(out)
    requires FaultEpisodes(env, FAULT_LIMIT - k as int)
    ensures Run(Config(Machine(RelayEnable, k, out), env), 2 * (FAULT_LIMIT - k as int)).m
         == Machine(HardGroundFault, FAULT_LIMIT as uint8, out)
    decreases FAULT_LIMIT - k as int
  {
    if k as int + 1 == FAULT_LIMIT {
      LastEpisode(k, out, env);
    } else {
      var rest := env[1 + GROUND_FAULT_DELAY_TICKS..];
      assert FaultEpisodes(rest, FAULT_LIMIT - (k + 1) as int);
      var c := Config(Machine(RelayEnable, k, out), env);
      var n := 2 * (FAULT_LIMIT - k as int);
      RepeatedFaultsEscalate(k + 1, out, rest);
      RetryThenRun(k, out, env, n);
      ThroughMid(c, Config(Machine(RelayEnable, k + 1, out), rest), n, 2 * (FAULT_LIMIT - (k + 1) as int));
    }
  }

  /** The base case of the escalation: the last episode. */
  lemma LastEpisode(k: uint8, out: bv8, env: seq<bv8>)
    requires k as int + 1 == FAULT_LIMIT
    requires CoilsIdle(out)
    requires FaultEpisodes(env, 1)
    ensures Run(Config(Machine(RelayEnable, k, out), env), 2 * (FAULT_LIMIT - k as int)).m
         == Machine(HardGroundFault, FAULT_LIMIT as uint8, out)
  {
    LastFaultEscalates(k, out, env);
    assert 2 * (FAULT_LIMIT - k as int) == 2;
  }

  /** A run equal to another one two iterations shorter ends where that
      one does. This only restates its requires for `.m`; it is a separate
      lemma so that the solver sees the two runs as opaque terms rather than
      unfolding them. */
  lemma ThroughMid(c: Config, mid: Config, n: nat, m: nat)
    requires 2 <= n && m == n - 2 && Run(c, n) == Run(mid, n - 2)
    ensures Run(c, n).m == Run(mid, m).m
  {
  }

  /** A fault while the relay is held closed in probation, at the last
      fault below the limit: PROBATIONARY_RELAY_ON goes to
      SOFT_GROUND_FAULT and then HARD_GROUND_FAULT, and neither dispatch
      drives a coil. The relay that RELAY_ENABLE last pulsed closed is
      never pulsed open. */
  lemma FaultInProbationLatchesClosed(out: bv8, env: seq<bv8>)
    requires |env| > 0 && Enabled(env[0]) && FaultActive(env[0])
    ensures var c := Config(Machine(ProbationaryRelayOn, (FAULT_LIMIT - 1) as uint8, out), env);
      && Dispatch(c.m, c.env) == Returned(SoftGroundFault, (FAULT_LIMIT - 1) as uint8, out, 1, [])
      && Dispatch(Step(c).m, Step(c).env) == Returned(HardGroundFault, FAULT_LIMIT as uint8, out, 0, [])
      && Run(c, 2).m == Machine(HardGroundFault, FAULT_LIMIT as uint8, out)
  {
    var c := Config(Machine(ProbationaryRelayOn, (FAULT_LIMIT - 1) as uint8, out), env);
    assert LeavesOn(env[0]);
    assert Step(c) == Config(Machine(SoftGroundFault, (FAULT_LIMIT - 1) as uint8, out), env[1..]);
    SoftFaultEscalates((FAULT_LIMIT - 1) as uint8, out, env[1..]);
    assert Run(c, 2) == Step(Step(c));
  }

  /** The retry after a soft ground fault reads no enable line: with
      neither request present and no fault, SOFT_GROUND_FAULT still goes
      back to RELAY_ENABLE, which pulses the OFF coil and then the ON coil
      and returns PROBATIONARY_RELAY_ON. */
  lemma RetryIgnoresRequests(k: uint8, out: bv8, env: seq<bv8>)
    requires k as int + 1 < FAULT_LIMIT
    requires CoilsIdle(out)
    requires GROUND_FAULT_DELAY_TICKS + 2 * RELAY_POWER_TICKS <= |env|
    requires forall j :: 0 <= j < |env| ==> !Enabled(env[j]) && !FaultActive(env[j])
    ensures Step(Config(Machine(SoftGroundFault, k, out), env))
         == Config(Machine(RelayEnable, k + 1, out), env[GROUND_FAULT_DELAY_TICKS..])
    ensures var r := OnRelayEnable(k + 1, out, env[GROUND_FAULT_DELAY_TICKS..]);
      && r.Returned? && r.next == ProbationaryRelayOn
      && |r.held| == 2 && OnlyAsserted(r.held[1], RelayOnPin)
  {
    SoftFaultRetries(k, out, env);
    var rest := env[GROUND_FAULT_DELAY_TICKS..];
    assert forall j :: 0 <= j < |rest| ==> !FaultActive(rest[j]);
    CleanEnable(k + 1, out, rest);
  }

  /** The FAULT_LIMIT-th fault: RELAY_ENABLE trips to SOFT_GROUND_FAULT,
      which goes straight to HARD_GROUND_FAULT. */
  lemma LastFaultEscalates(k: uint8, out: bv8, env: seq<bv8>)
    requires k as int + 1 == FAULT_LIMIT
    requires CoilsIdle(out)
    requires |env| > 0 && FaultActive(env[0])
    ensures Run(Config(Machine(RelayEnable, k, out), env), 2).m == Machine(HardGroundFault, FAULT_LIMIT as uint8, out)
  {
    var c := Config(Machine(RelayEnable, k, out), env);
    FaultTripsEnable(k, out, env);
    SoftFaultEscalates(k, out, env[1..]);
    assert Run(c, 2) == Step(Step(c));
  }

  /** Two iterations, then the rest. */
  lemma RunSplitsTwo(c: Config, n: nat)
    requires 2 <= n
    ensures Run(c, n) == Run(Run(c, 2), n - 2)
  {
    assert Run(c, n) == Run(Step(c), n - 1) == Run(Step(Step(c)), n - 2);
    assert Run(c, 2) == Step(Step(c));
  }

  /** A run through one fault episode during enable continues from
      RELAY_ENABLE with one more fault counted. */
  lemma RetryThenRun(k: uint8, out: bv8, env: seq<bv8>, n: nat)
    requires k as int + 1 < FAULT_LIMIT
    requires CoilsIdle(out)
    requires 1 + GROUND_FAULT_DELAY_TICKS <= |env| && FaultActive(env[0])
    requires 2 <= n
    ensures Run(Config(Machine(RelayEnable, k, out), env), n)
         == Run(Config(Machine(RelayEnable, k + 1, out), env[1 + GROUND_FAULT_DELAY_TICKS..]), n - 2)
  {
    FaultDuringEnableRetries(k, out, env);
    RunSplitsTwo(Config(Machine(RelayEnable, k, out), env), n);
  }

  /** SOFT_GROUND_FAULT at the last fault below the limit goes straight to
      HARD_GROUND_FAULT with FAULT_LIMIT faults counted. */
  lemma SoftFaultEscalates(k: uint8, out: bv8, env: seq<bv8>)
    requires k as int + 1 == FAULT_LIMIT
    ensures Step(Config(Machine(SoftGroundFault, k, out), env))
         == Config(Machine(HardGroundFault, FAULT_LIMIT as uint8, out), env)
  {
    assert Dispatch(Machine(SoftGroundFault, k, out), env) == OnSoftGroundFault(k, out, env);
  }

  /** An enable request going away during probation clears the fault count
      and disables the relay rather than closing it for good. */
  lemma ProbationDropDisables(k: uint8, out: bv8, env: seq<bv8>)
    requires |env| > 0 && !Enabled(env[0])
    ensures Step(Config(Machine(ProbationaryRelayOn, k, out), env))
         == Config(Machine(RelayDisable, 0, out), env[1..])
  {
    assert LeavesOn(env[0]);
  }
}
